=== FILE: README.md ===
# HoloJS audio context bridge — Dafny model

This project models the sequential core of `AudioContext.cpp` in the HoloJS host, the bridge that exposes a Web-Audio-like API to the Chakra script engine:

- **Container sniffing** (`sniffing.dfy`, module `Sniffing`). This is the format check inside the `DecodeAudioData` background task. A buffer is WAV when it has `RIFF` at bytes 0..4 and `WAVE` at bytes 8..12: chunk id, 4-byte chunk size, form type. A buffer is Ogg when it starts with the `OggS` page capture pattern from section 6 of RFC 3533. Anything else is unknown. The model adds the length guard that the source omits. The source's unchecked comparison is modelled separately, as reads over the buffer followed by whatever bytes lie after it in memory.
- **The decode-request lifecycle** (`decode.dfy`, module `Decode`). A request is an immutable state stepped by one small function per engine call:
  - `JsAddRef` and `JsRelease` update a taken/released counter for each of `onSuccess`, `data` and `onError`;
  - `RunAsync` appends a handler to the dispatcher queue;
  - `JsCallFunction` counts a script callback.

  The hop onto the UI dispatcher is modelled as "queued, later runs": the background task appends to the queue, and `Drain` runs the queued handlers afterwards. A script callback is only possible once `decodeAudioData` has returned true; this is a precondition of `State.Call`, which the verifier checks wherever a callback happens. A `Build` parameter selects the program as written or the corrected one (see Findings).
- **Entry-point guards** (`entry_points.dfy`, module `EntryPoints`). These are the six projected static functions, covering both the guard and what each function does once the guard passes. A function proceeds only when `argumentCount` is exactly 5 (`listener_setPosition`), 8 (`listener_setOrientation`) or 2 (the node factories and `getDestination`), and argument 1 resolves to a tracked audio context. Otherwise it returns with no effect. Once past the guard, the setters update the listener, and the factories create wrappers over new native nodes. `getDestination` creates a new wrapper over the context's one existing destination node. The host state is a pair of maps standing for the resource tracker, plus counters for fresh handles and native node ids.
- **Projection registration** (`projections.dfy`, module `Projections`). `InitializeProjections` registers the six names in order on the `audioContext` namespace and stops at the first refusal.

Three behaviours of the code are worth noting:
- Projections made before a refusal stay registered (`Projections.Register`).
- Each callback reference is released twice on its dispatched path (see Findings).
- `listener_setPosition` and `listener_setOrientation` answer `JS_INVALID_REFERENCE` whether they reject or proceed. `RETURN_IF_FALSE` returns `false`, which converts to a null reference. Only the absence of a side effect tells the two outcomes apart.

## Model

| member | source | states |
|---|---|---|
| Sniffing.Sniff | HoloJS/HoloJsHost/AudioContext.cpp:155-167 | A WAV verdict needs at least 12 bytes and an Ogg verdict at least 4, so nothing past the buffer is consulted. |
| Sniffing.Container.Extension | HoloJS/HoloJsHost/AudioContext.cpp:160-169 | The decoder is handed no extension (`soundExtension` stays null) exactly when the container is unknown. `Decode.PathOf` takes the failure path on exactly this test. |
| Sniffing.SniffSignatures | HoloJS/HoloJsHost/AudioContext.cpp:155-167 | Byte-level characterisation. WAV holds exactly when `RIFF` is at 0..4 and `WAVE` at 8..12. Ogg holds exactly when `OggS` is at 0..4. The Ogg case needs no "and not WAV" because the two signatures exclude each other. |
| Sniffing.SniffReadsOnlyHeader | HoloJS/HoloJsHost/AudioContext.cpp:162-165 | On a buffer of at least 12 bytes the verdict depends only on the first 12 bytes. |
| Sniffing.Compare | HoloJS/HoloJsHost/AudioContext.cpp:162-165 | The bounds-checked memcmp loop returns true exactly when the bytes at the offset exist and spell the magic. |
| Sniffing.SniffBuffer | HoloJS/HoloJsHost/AudioContext.cpp:160-167 | The comparison chain (RIFF, then WAVE, then OggS) computes the same verdict as `Sniff`. |
| Sniffing.SniffUnguarded | HoloJS/HoloJsHost/AudioContext.cpp:162-165 | The unchecked fixed-offset reads need only the memory they touch: 4 bytes, plus bytes 8..12 after `RIFF` matched. On a buffer of at least 12 bytes the verdict is the guarded one whatever lies beyond it. An Ogg verdict agrees with the guarded one on any buffer of 4 bytes or more. So the two disagree only on a buffer shorter than 12 bytes. |
| Sniffing.UnguardedReadsPastBuffer | HoloJS/HoloJsHost/AudioContext.cpp:151-166 | A 4-byte `RIFF` buffer followed in memory by `....WAVE` is taken for WAV, and a 1-byte `O` buffer followed by `ggS` for Ogg. The guarded sniffer rejects both. |
| Sniffing.WavHeaderSniffsAsWav | HoloJS/HoloJsHost/AudioContext.cpp:155-164 | `RIFF`, any 4 size bytes, `WAVE`, then any payload sniffs as WAV. |
| Sniffing.OggPageSniffsAsOgg | HoloJS/HoloJsHost/AudioContext.cpp:165-166 | `OggS` followed by anything sniffs as Ogg. |
| Decode.PathOf | HoloJS/HoloJsHost/AudioContext.cpp:151-169 | A rejected request has no terminal path. A recognised path carries the sniffed container, which is never unknown. The failure path is taken when the storage fetch fails or the signature is unknown. |
| Decode.Initiate | HoloJS/HoloJsHost/AudioContext.cpp:134-148 | The synchronous part returns true exactly when the request passes the ArrayBuffer check and every JsAddRef. A non-ArrayBuffer returns false before any JsAddRef or scheduling. An accepted request holds one reference on onSuccess, on data and on onError if it was passed. A rejected one releases what it took only when corrected. |
| Decode.Background | HoloJS/HoloJsHost/AudioContext.cpp:169-198 | One terminal path runs and queues at most one handler: the success handler when the container is recognised, otherwise the error handler when onError was passed. data is released once. onError is released here on the recognised path, onSuccess on the failure path. |
| Decode.SuccessCallback | HoloJS/HoloJsHost/AudioContext.cpp:214-226 | One onSuccess call. As written it also releases onSuccess, and the corrected build does not. |
| Decode.ErrorCallback | HoloJS/HoloJsHost/AudioContext.cpp:204-212 | One onError call. As written it also releases onError, and the corrected build does not. |
| Decode.RunHandler | HoloJS/HoloJsHost/AudioContext.cpp:173-177 | A dispatched handler makes its one callback and releases that callback's reference, twice as written and once corrected. It never touches data. |
| Decode.Drain | HoloJS/HoloJsHost/AudioContext.cpp:173-194 | Running the dispatcher queue empties it. The success and error calls equal the queued handlers of each kind, and the callback releases grow in proportion. |
| Decode.DecodeAudioData | HoloJS/HoloJsHost/AudioContext.cpp:134-202 | End to end, a call returns once, true exactly when accepted. The recognised container is the sniff of the fetched bytes, and onSuccess is called once exactly then. onError is called once exactly on the failure path with onError passed, so at most one callback runs. On an accepted request, data is taken and released once. On an accepted request, the callback counters are balanced except for the double releases as written. Rejected requests are covered by `Decode.CorrectedIsBalanced` and `Decode.AsWrittenRejectionReleasesNothing`. |
| Decode.WavRequestSucceeds | HoloJS/HoloJsHost/AudioContext.cpp:155-177 | Any accepted RIFF/WAVE buffer is decoded as WAV, with one success call and no error call. |
| Decode.OggRequestSucceeds | HoloJS/HoloJsHost/AudioContext.cpp:165-177 | Any accepted `OggS` buffer is decoded as Ogg, with one success call and no error call. |
| Decode.UnknownSignatureCallsOnError | HoloJS/HoloJsHost/AudioContext.cpp:189-198 | `FOOB` plus anything, with onError passed, calls onError once and onSuccess never. |
| Decode.CorrectedIsBalanced | HoloJS/HoloJsHost/AudioContext.cpp:140-198 | Corrected, every reference is released exactly as often as it was taken, on every path. |
| Decode.AsWrittenRejectionReleasesNothing | HoloJS/HoloJsHost/AudioContext.cpp:140-145 | As written, a request turned down releases nothing, including references taken before a JsAddRef failed. |
| Decode.BuildsAgreeOnWhatScriptSees | HoloJS/HoloJsHost/AudioContext.cpp:204-226 | On every request both builds give the same return value, script calls and decoded container; on an accepted request they also handle data alike. On a request turned down after some JsAddRef succeeded, the corrected build also releases the references it already took, data included. |
| Decode.AsWrittenReleasesOnSuccessTwice | HoloJS/HoloJsHost/AudioContext.cpp:173-177 | As written, every accepted request with a recognised buffer ends with onSuccess taken once and released twice (the handler's release plus the one at line 225). |
| Decode.AsWrittenReleasesOnErrorTwice | HoloJS/HoloJsHost/AudioContext.cpp:189-195 | As written, every accepted request on the failure path with onError passed ends with onError taken once and released twice (the handler's release plus the one at line 211). This covers a failed storage fetch and any unrecognised buffer the unchecked comparison reads within bounds. |
| Decode.AsWrittenLeaksOnRefusedAddRef | HoloJS/HoloJsHost/AudioContext.cpp:140-141 | As written, whenever JsAddRef on data fails after the one on onSuccess succeeded, the call returns false with onSuccess taken once and never released. |
| EntryPoints.CheckCall | HoloJS/HoloJsHost/AudioContext.cpp:42-45 | The guard proceeds exactly when the argument count equals the entry point's arity (5, 8 or 2) and argument 1 resolves to a tracked context. The same guard appears at lines 59-62, 80-83, 93-96, 104-107 and 116-119. |
| EntryPoints.SetPosition | HoloJS/HoloJsHost/AudioContext.cpp:47-53 | The context's listener position becomes arguments 2..4. Orientation, nodes, other contexts and counters are unchanged. |
| EntryPoints.SetOrientation | HoloJS/HoloJsHost/AudioContext.cpp:64-74 | The listener orientation becomes arguments 2..7. Position, nodes, other contexts and counters are unchanged. |
| EntryPoints.CreateNode | HoloJS/HoloJsHost/AudioContext.cpp:113-132 | A factory returns a fresh handle to a wrapper of the requested kind over a new native node owned by the context. Only a gain node is appended to the context's node list. |
| EntryPoints.Destination | HoloJS/HoloJsHost/AudioContext.cpp:101-111 | getDestination returns a fresh handle to a new wrapper over the context's existing destination node, and no native node is created. |
| EntryPoints.Invoke | HoloJS/HoloJsHost/AudioContext.cpp:39-125 | A rejected call leaves the host unchanged and answers the invalid reference. Listener setters always answer it and never add wrappers. An accepted factory call returns a handle that was not tracked before. |
| EntryPoints.NewContext | HoloJS/HoloJsHost/AudioContext.cpp:19 | The native context made by `lab::MakeAudioContext` comes with a new destination node and an empty listener, and records no nodes. Its tracking under a fresh handle stands for setup code that is not part of this model. |
| EntryPoints.NoHostIsValid | HoloJS/HoloJsHost/AudioContext.cpp:19 | The host before any context is made tracks nothing and satisfies the invariant, so with the lemmas below every reachable host does. |
| EntryPoints.NewContextKeepsValid | HoloJS/HoloJsHost/AudioContext.cpp:19 | Creating a context preserves the host invariant: fresh handles and ids, faithful destination wrappers, gain bookkeeping. |
| EntryPoints.CreateNodeKeepsValid | HoloJS/HoloJsHost/AudioContext.cpp:127-132 | The node factories preserve the host invariant. |
| EntryPoints.DestinationKeepsValid | HoloJS/HoloJsHost/AudioContext.cpp:101-111 | getDestination preserves the host invariant. |
| EntryPoints.ListenerKeepsValid | HoloJS/HoloJsHost/AudioContext.cpp:51-72 | Changing one context's listener and nothing else preserves the host invariant, as `setPosition` at line 51 and `setOrientation` at line 72 do. |
| EntryPoints.InvokeKeepsValid | HoloJS/HoloJsHost/AudioContext.cpp:39-125 | Every projected call, rejected or not, preserves the host invariant. |
| EntryPoints.DestinationIsShared | HoloJS/HoloJsHost/AudioContext.cpp:109-110 | Two getDestination calls on one context give two distinct handles wrapping the same native destination node. |
| EntryPoints.FactoryNodesAreFresh | HoloJS/HoloJsHost/AudioContext.cpp:85-129 | The native node a factory creates (panner at line 85, buffer source at line 121, gain at line 129) is wrapped by no existing wrapper and is no context's destination. |
| Projections.Lookup | HoloJS/HoloJsHost/AudioContext.cpp:25-34 | A property name the table knows names the entry point registered under it at the cited lines; any other name names none. |
| Projections.LookupFindsEveryName | HoloJS/HoloJsHost/AudioContext.cpp:25-34 | Each entry point is found again under its own name, so the names are distinct. |
| Projections.Register | HoloJS/HoloJsHost/AudioContext.cpp:25-36 | Registration succeeds exactly when no entry is refused. What it projects is a prefix of the order containing no refused entry. On failure, the next entry in order is the refused one. |
| Projections.InitializeProjections | HoloJS/HoloJsHost/AudioContext.cpp:23-37 | Initialisation succeeds exactly when the host refuses nothing, and then all six entry points are projected. |

## Left out

- Decode.PathOf: `PathOf`, and so `DecodeAudioData`, sniffs with the guarded `Sniff`. The source's out-of-bounds reads are modelled only in `Sniffing.SniffUnguarded`, because what they return depends on memory beyond the buffer.
- EntryPoints.NewContext: the source line only calls `lab::MakeAudioContext`. The code that wraps a new context and hands it to the resource tracker is not part of this model, so the fresh handle is the model's own bookkeeping.
- Decode.Initiate: a failing `JsGetValueType` is folded into "not an ArrayBuffer", because both return false before any reference is taken.
- Chakra value marshalling (`JsGetValueType`, `JsGetArrayBufferStorage`, `JsCallFunction`, `JsAddRef`): these are foreign engine calls. Their outcomes are fields of `Decode.Request`: the type answer, the storage bytes or a failed fetch, and the set of refused AddRefs.
- A `JsCallFunction` that throws (`HANDLE_EXCEPTION_IF_JS_ERROR` in the two callbacks): the macro's definition is not part of this model, so the callbacks are taken to complete.
- The `EXIT_IF_TRUE(callback == JS_INVALID_REFERENCE)` checks in the callbacks: a handler is only queued for a reference whose JsAddRef succeeded. The model treats an invalid onSuccess as a refused JsAddRef.
- JsRelease return codes: they are ignored by the source, and the model ignores them too.
- `create_async` and `CoreDispatcher::RunAsync` threading: the background releases may interleave with the dispatched handler, but the counters do not depend on that order. Several outstanding requests are not modelled together.
- LabSound: the context, node constructors, `destination()`, `sampleRate()` and `lab::SoundBuffer` decoding are the external DSP engine. A native node is a fresh id, and decoding only records the container.
- The SoundBuffer handle passed to onSuccess: it is created by the resource tracker, whose source is not part of this model.
- Listener coordinates: they are `GLfloat` conversions of script values. The model stores the raw argument values.
- `argumentCount` is an `unsigned short`: the model takes it as the length of the argument list, and lists beyond 65535 arguments are not modelled.
- `ScriptResourceTracker` and `ScriptHostUtilities::ProjectFunction`: these are not part of this model. The tracker is modelled as maps from handles to contexts and wrappers. ProjectFunction is reduced to a set of refused registrations.
- Raw-pointer lifetime of `m_audioNodes`, the `new`-allocated wrappers and `~AudioContext`: this is manual heap management with no stated contract.

## Findings

| source | as written | input that shows it | evidently intended | confidence | as-written member | corrected member |
|---|---|---|---|---|---|---|
| HoloJS/HoloJsHost/AudioContext.cpp:162-165 | memcmp at offsets 0 and 8 with no length check | a 4-byte buffer `RIFF` followed in memory by `....WAVE` sniffs as WAV; a 1-byte buffer `O` followed in memory by `ggS` sniffs as Ogg | buffers shorter than a signature do not match it | high, not executed | Sniffing.UnguardedReadsPastBuffer | Sniffing.SniffSignatures |
| HoloJS/HoloJsHost/AudioContext.cpp:176 | the success handler releases onSuccess after `callbackScriptOnDecodeSuccess` already released it (line 225) | any accepted RIFF/WAVE buffer: onSuccess taken once, released twice | one release per JsAddRef | high, not executed | Decode.AsWrittenReleasesOnSuccessTwice | Decode.CorrectedIsBalanced |
| HoloJS/HoloJsHost/AudioContext.cpp:193 | the error handler releases onError after `callbackScriptOnDecodeError` already released it (line 211) | a request whose buffer is `FOOB` with onError passed: onError taken once, released twice | one release per JsAddRef | high, not executed | Decode.AsWrittenReleasesOnErrorTwice | Decode.CorrectedIsBalanced |
| HoloJS/HoloJsHost/AudioContext.cpp:140-145 | an early return on a failed JsAddRef keeps the references already taken | JsAddRef on data fails after the one on onSuccess succeeded: onSuccess taken once, never released | references taken before the failure are released | medium, not executed | Decode.AsWrittenLeaksOnRefusedAddRef | Decode.CorrectedIsBalanced |

=== FILE: decode.dfy ===
/** The life of one decodeAudioData request: the synchronous type check and
    reference taking on the script thread, the background task that copies and
    sniffs the bytes, and the handler that task queues on the UI dispatcher,
    which later runs on the script thread and calls back into script.

    A request is an immutable state stepped by small functions, one per
    engine call.  Each protected reference carries a counter of the JsAddRef
    and JsRelease calls made on it; the dispatcher hop is a queue the
    background task appends to and the script thread later drains. */
module Decode {
  import opened Wrappers
  import opened Sniffing

  /** The three script values a request protects with JsAddRef */
  datatype Ref = OnSuccess | Data | OnError

  /** The two handlers the background task may queue on the dispatcher */
  datatype Handler = SuccessHandler | ErrorHandler

  /** What the script engine answers for one request: whether `data` is an
      ArrayBuffer (a failing type query is answered the same as "no"), whether
      an error callback was passed, the buffer's bytes when the background
      task can fetch its storage, and the JsAddRef calls the engine refuses. */
  datatype Request = Request(
    isArrayBuffer: bool,
    hasOnError: bool,
    storage: Option<seq<bv8>>,
    refusedAddRefs: set<Ref>)

  /** The program modelled: the source as it stands, or with the reference
      accounting corrected (no second JsRelease inside the script callbacks,
      and references already taken are released when a later JsAddRef fails). */
  datatype Build = AsWritten | Corrected

  /** How a request ends */
  datatype Path = Rejected | Recognised(container: Container) | Unrecognised

  /** The references an accepted request takes */
  predicate Held(req: Request, r: Ref) {
    r != OnError || req.hasOnError
  }

  /** The request passes the type check and every JsAddRef it makes. */
  predicate Accepts(req: Request) {
    && req.isArrayBuffer
    && OnSuccess !in req.refusedAddRefs
    && Data !in req.refusedAddRefs
    && (req.hasOnError ==> OnError !in req.refusedAddRefs)
  }

  /** The terminal path: a fetched buffer whose signature is recognised goes
      to the decoder; a failed storage fetch or an unknown signature takes the
      single combined failure path. */
  function PathOf(req: Request): (p: Path)
    ensures p == Rejected <==> !Accepts(req)
    ensures p.Recognised? ==> p.container != Unknown && req.storage.Some? && p.container == Sniff(req.storage.value)
    ensures p == Unrecognised ==> req.storage.None? || Sniff(req.storage.value) == Unknown
  {
    if !Accepts(req) then Rejected
    else match req.storage
      case None => Unrecognised
      case Some(bytes) => if Sniff(bytes).Extension().None? then Unrecognised else Recognised(Sniff(bytes))
  }

  /** JsAddRef and JsRelease calls made on one reference */
  datatype Counter = Counter(taken: nat, released: nat) {
    predicate Balanced() {
      taken == released
    }
  }

  const Untouched: Counter := Counter(0, 0)

  /** A request in flight: the counters of its three references, whether
      decodeAudioData has returned (and what), whether the background task was
      scheduled and what it decoded, the handlers queued on the dispatcher and
      not yet run, and the script callbacks made so far. */
  datatype State = State(
    onSuccess: Counter,
    data: Counter,
    onError: Counter,
    returned: Option<bool>,
    taskStarted: bool,
    decoded: Option<Container>,
    queue: seq<Handler>,
    successCalls: nat,
    errorCalls: nat)
  {
    function Refs(r: Ref): Counter {
      match r
      case OnSuccess => onSuccess
      case Data => data
      case OnError => onError
    }

    /** JsAddRef on `r` */
    function Take(r: Ref): (s: State)
      ensures s.Refs(r) == Counter(Refs(r).taken + 1, Refs(r).released)
      ensures forall q :: q != r ==> s.Refs(q) == Refs(q)
      ensures s.(onSuccess := onSuccess, data := data, onError := onError) == this
    {
      match r
      case OnSuccess => this.(onSuccess := Counter(onSuccess.taken + 1, onSuccess.released))
      case Data => this.(data := Counter(data.taken + 1, data.released))
      case OnError => this.(onError := Counter(onError.taken + 1, onError.released))
    }

    /** JsRelease on `r` */
    function Drop(r: Ref): (s: State)
      ensures s.Refs(r) == Counter(Refs(r).taken, Refs(r).released + 1)
      ensures forall q :: q != r ==> s.Refs(q) == Refs(q)
      ensures s.(onSuccess := onSuccess, data := data, onError := onError) == this
    {
      match r
      case OnSuccess => this.(onSuccess := Counter(onSuccess.taken, onSuccess.released + 1))
      case Data => this.(data := Counter(data.taken, data.released + 1))
      case OnError => this.(onError := Counter(onError.taken, onError.released + 1))
    }

    /** RunAsync: `h` is queued on the UI dispatcher, to run later. */
    function Enqueue(h: Handler): (s: State)
      ensures s.queue == queue + [h]
      ensures s.(queue := queue) == this
    {
      this.(queue := queue + [h])
    }

    /** JsCallFunction on onSuccess or onError.  Script callbacks run on the
        script thread, which is busy with decodeAudioData until it returns, so
        a callback can only happen once it has returned true. */
    function Call(h: Handler): (s: State)
      requires returned == Some(true)
      ensures s.successCalls == successCalls + (if h == SuccessHandler then 1 else 0)
      ensures s.errorCalls == errorCalls + (if h == ErrorHandler then 1 else 0)
      ensures s.(successCalls := successCalls, errorCalls := errorCalls) == this
    {
      match h
      case SuccessHandler => this.(successCalls := successCalls + 1)
      case ErrorHandler => this.(errorCalls := errorCalls + 1)
    }
  }

  /** Nothing has happened yet. */
  const Start: State := State(Untouched, Untouched, Untouched, None, false, None, [], 0, 0)

  /** The synchronous part of decodeAudioData on the script thread, up to its
      return value: the ArrayBuffer check, then JsAddRef on onSuccess, data
      and (when passed) onError, each of which may fail, then the background
      task is scheduled. */
  function Initiate(req: Request, b: Build): (s: State)
    ensures s.returned == Some(Accepts(req))
    ensures !req.isArrayBuffer ==> s == Start.(returned := Some(false))
    ensures s.taskStarted <==> Accepts(req)
    ensures Accepts(req) ==> forall r :: s.Refs(r) == Counter(if Held(req, r) then 1 else 0, 0)
    ensures !Accepts(req) ==> forall r :: s.Refs(r).released == (if b == Corrected then s.Refs(r).taken else 0)
    ensures req.isArrayBuffer && OnSuccess !in req.refusedAddRefs ==> s.onSuccess.taken == 1
    ensures s.decoded == None && s.queue == [] && s.successCalls == 0 && s.errorCalls == 0
  {
    if !req.isArrayBuffer || OnSuccess in req.refusedAddRefs then
      Start.(returned := Some(false))
    else
      var s := Start.Take(OnSuccess);
      if Data in req.refusedAddRefs then
        var s := if b == Corrected then s.Drop(OnSuccess) else s;
        s.(returned := Some(false))
      else
        var s := s.Take(Data);
        if req.hasOnError && OnError in req.refusedAddRefs then
          var s := if b == Corrected then s.Drop(Data).Drop(OnSuccess) else s;
          s.(returned := Some(false))
        else
          var s := if req.hasOnError then s.Take(OnError) else s;
          s.(taskStarted := true, returned := Some(true))
  }

  /** The background task, from state `s`, on the terminal path `p`: a
      recognised container is decoded, the success handler is queued, and
      onError (when passed) and data are released here; otherwise the error
      handler is queued when onError was passed, and onSuccess and data are
      released.  Either way exactly one path runs and at most one handler is
      queued. */
  function Background(s: State, hasOnError: bool, p: Path): (t: State)
    requires s.taskStarted && !p.Rejected?
    ensures t.queue == s.queue + (if p.Recognised? then [SuccessHandler]
                                  else if hasOnError then [ErrorHandler] else [])
    ensures t.decoded == (if p.Recognised? then Some(p.container) else s.decoded)
    ensures forall r :: t.Refs(r).taken == s.Refs(r).taken
    ensures t.data.released == s.data.released + 1
    ensures t.onSuccess.released == s.onSuccess.released + (if p.Recognised? then 0 else 1)
    ensures t.onError.released == s.onError.released + (if p.Recognised? && hasOnError then 1 else 0)
    ensures t.returned == s.returned && t.taskStarted == s.taskStarted
    ensures t.successCalls == s.successCalls && t.errorCalls == s.errorCalls
  {
    match p
    case Recognised(c) =>
      var t := s.(decoded := Some(c)).Enqueue(SuccessHandler);
      var t := if hasOnError then t.Drop(OnError) else t;
      t.Drop(Data)
    case Unrecognised =>
      var t := if hasOnError then s.Enqueue(ErrorHandler) else s;
      t.Drop(OnSuccess).Drop(Data)
  }

  /** callbackScriptOnDecodeSuccess: hands a new SoundBuffer handle to
      onSuccess; as written it then releases onSuccess itself. */
  function SuccessCallback(s: State, b: Build): (t: State)
    requires s.returned == Some(true)
    ensures t.successCalls == s.successCalls + 1 && t.errorCalls == s.errorCalls
    ensures t.onSuccess.released == s.onSuccess.released + (if b == AsWritten then 1 else 0)
    ensures t.onSuccess.taken == s.onSuccess.taken && t.data == s.data && t.onError == s.onError
    ensures t.queue == s.queue && t.returned == s.returned && t.taskStarted == s.taskStarted && t.decoded == s.decoded
  {
    var t := s.Call(SuccessHandler);
    if b == AsWritten then t.Drop(OnSuccess) else t
  }

  /** callbackScriptOnDecodeError: calls onError with itself as `this` and no
      arguments; as written it then releases onError itself. */
  function ErrorCallback(s: State, b: Build): (t: State)
    requires s.returned == Some(true)
    ensures t.errorCalls == s.errorCalls + 1 && t.successCalls == s.successCalls
    ensures t.onError.released == s.onError.released + (if b == AsWritten then 1 else 0)
    ensures t.onError.taken == s.onError.taken && t.data == s.data && t.onSuccess == s.onSuccess
    ensures t.queue == s.queue && t.returned == s.returned && t.taskStarted == s.taskStarted && t.decoded == s.decoded
  {
    var t := s.Call(ErrorHandler);
    if b == AsWritten then t.Drop(OnError) else t
  }

  /** A queued handler running on the script thread: the callback, then the
      handler's own JsRelease of the callback reference. */
  function RunHandler(s: State, h: Handler, b: Build): (t: State)
    requires s.returned == Some(true)
    ensures t.successCalls == s.successCalls + (if h == SuccessHandler then 1 else 0)
    ensures t.errorCalls == s.errorCalls + (if h == ErrorHandler then 1 else 0)
    ensures var extra := if b == AsWritten then 2 else 1;
            && t.onSuccess == Counter(s.onSuccess.taken, s.onSuccess.released + (if h == SuccessHandler then extra else 0))
            && t.onError == Counter(s.onError.taken, s.onError.released + (if h == ErrorHandler then extra else 0))
    ensures t.data == s.data
    ensures t.queue == s.queue && t.returned == s.returned && t.taskStarted == s.taskStarted && t.decoded == s.decoded
  {
    match h
    case SuccessHandler => SuccessCallback(s, b).Drop(OnSuccess)
    case ErrorHandler => ErrorCallback(s, b).Drop(OnError)
  }

  /** Occurrences of `h` in a dispatcher queue */
  function Queued(queue: seq<Handler>, h: Handler): nat {
    if queue == [] then 0 else (if queue[0] == h then 1 else 0) + Queued(queue[1..], h)
  }

  /** JsRelease calls on a callback reference made by `n` runs of its handler */
  function HandlerReleases(b: Build, n: nat): nat {
    if b == AsWritten then 2 * n else n
  }

  /** The dispatcher running, in order, every queued handler. */
  function Drain(s: State, b: Build): (t: State)
    requires s.returned == Some(true)
    ensures t.queue == []
    ensures t.successCalls == s.successCalls + Queued(s.queue, SuccessHandler)
    ensures t.errorCalls == s.errorCalls + Queued(s.queue, ErrorHandler)
    ensures t.onSuccess == Counter(s.onSuccess.taken, s.onSuccess.released + HandlerReleases(b, Queued(s.queue, SuccessHandler)))
    ensures t.onError == Counter(s.onError.taken, s.onError.released + HandlerReleases(b, Queued(s.queue, ErrorHandler)))
    ensures t.data == s.data && t.returned == s.returned && t.taskStarted == s.taskStarted && t.decoded == s.decoded
    decreases |s.queue|
  {
    if s.queue == [] then s
    else
      var h := s.queue[0];
      var rest := s.queue[1..];
      Drain(RunHandler(s.(queue := rest), h, b), b)
  }

  /** decodeAudioData end to end: the synchronous part, then (when accepted)
      the background task, then the dispatcher running the handler it
      queued. */
  function DecodeAudioData(req: Request, b: Build): (t: State)
    ensures t.returned == Some(Accepts(req))
    ensures !req.isArrayBuffer ==> t == Start.(returned := Some(false))
    ensures t.taskStarted <==> Accepts(req)
    ensures t.queue == []
    ensures t.decoded.Some? <==> PathOf(req).Recognised?
    ensures PathOf(req).Recognised? ==> t.decoded == Some(Sniff(req.storage.value))
    ensures t.successCalls == (if PathOf(req).Recognised? then 1 else 0)
    ensures t.errorCalls == (if PathOf(req) == Unrecognised && req.hasOnError then 1 else 0)
    ensures Accepts(req) ==> t.data == Counter(1, 1)
    ensures Accepts(req) ==>
              t.onSuccess == Counter(1, if PathOf(req).Recognised? && b == AsWritten then 2 else 1)
    ensures Accepts(req) ==>
              t.onError == if !req.hasOnError then Untouched
                           else Counter(1, if PathOf(req) == Unrecognised && b == AsWritten then 2 else 1)
  {
    var s := Initiate(req, b);
    if !Accepts(req) then s
    else
      var p := PathOf(req);
      var t := Background(s, req.hasOnError, p);
      Drain(t, b)
  }

  /** An accepted request whose bytes carry the RIFF/WAVE header reaches the
      decoder and calls onSuccess once and onError never, whatever the chunk
      size, the payload and the presence of onError. */
  lemma WavRequestSucceeds(size: seq<bv8>, payload: seq<bv8>, hasOnError: bool, b: Build)
    requires |size| == 4
    ensures var t := DecodeAudioData(Request(true, hasOnError, Some(WavHeader(size) + payload), {}), b);
            t.decoded == Some(Wav) && t.successCalls == 1 && t.errorCalls == 0
  {
    WavHeaderSniffsAsWav(size, payload);
  }

  /** The same for a buffer that opens with an Ogg page. */
  lemma OggRequestSucceeds(rest: seq<bv8>, hasOnError: bool, b: Build)
    ensures var t := DecodeAudioData(Request(true, hasOnError, Some(OggMagic + rest), {}), b);
            t.decoded == Some(Ogg) && t.successCalls == 1 && t.errorCalls == 0
  {
    OggPageSniffsAsOgg(rest);
  }

  /** "FOOB" followed by anything matches neither signature: with onError
      passed, onError is called once and onSuccess never. */
  lemma UnknownSignatureCallsOnError(rest: seq<bv8>, b: Build)
    ensures var t := DecodeAudioData(Request(true, true, Some([0x46, 0x4F, 0x4F, 0x42] + rest), {}), b);
            t.decoded == None && t.successCalls == 0 && t.errorCalls == 1
  {
    var bytes: seq<bv8> := [0x46, 0x4F, 0x4F, 0x42] + rest;
    assert bytes[0] == 0x46;
    SniffSignatures(bytes);
  }

  /** Corrected, every reference a request takes is released exactly as often
      as it was taken, on every path: rejected, recognised or not. */
  lemma CorrectedIsBalanced(req: Request)
    ensures forall r :: DecodeAudioData(req, Corrected).Refs(r).Balanced()
  {
    var t := DecodeAudioData(req, Corrected);
    if !Accepts(req) {
      assert t == Initiate(req, Corrected);
    }
  }

  /** As written, a request that is turned down releases nothing, even the
      references it took before a JsAddRef failed. */
  lemma AsWrittenRejectionReleasesNothing(req: Request)
    requires !Accepts(req)
    ensures forall r :: DecodeAudioData(req, AsWritten).Refs(r).released == 0
  {
    assert DecodeAudioData(req, AsWritten) == Initiate(req, AsWritten);
  }

  /** Both programs return the same answer, make the same script calls and
      decode the same container on every request, and handle `data` alike on
      every accepted one.  On a request turned down after some JsAddRef
      succeeded the corrected program also releases what it took, `data`
      included. */
  lemma BuildsAgreeOnWhatScriptSees(req: Request)
    ensures var w := DecodeAudioData(req, AsWritten);
            var c := DecodeAudioData(req, Corrected);
            && w.returned == c.returned
            && w.successCalls == c.successCalls
            && w.errorCalls == c.errorCalls
            && w.decoded == c.decoded
            && (Accepts(req) ==> w.data == c.data)
  {
  }

  /** As written, every accepted request with a recognised buffer releases
      onSuccess twice: once inside callbackScriptOnDecodeSuccess and once more
      in the dispatched handler, against a single JsAddRef. */
  lemma AsWrittenReleasesOnSuccessTwice(req: Request)
    requires Accepts(req) && PathOf(req).Recognised?
    ensures DecodeAudioData(req, AsWritten).onSuccess == Counter(1, 2)
  {
  }

  /** As written, every accepted request that reaches the failure path with
      onError passed releases onError twice: inside
      callbackScriptOnDecodeError and in the dispatched handler.  The buffer
      is one the unchecked comparison reads within bounds (or whose storage
      could not be fetched), so the source reaches that path too. */
  lemma AsWrittenReleasesOnErrorTwice(req: Request)
    requires Accepts(req) && req.hasOnError && PathOf(req) == Unrecognised
    requires req.storage.Some? ==> ReadsStayInBuffer(req.storage.value)
    ensures DecodeAudioData(req, AsWritten).onError == Counter(1, 2)
  {
  }

  /** As written, when JsAddRef on `data` fails after onSuccess was taken,
      decodeAudioData returns false with onSuccess never released. */
  lemma AsWrittenLeaksOnRefusedAddRef(req: Request)
    requires req.isArrayBuffer && OnSuccess !in req.refusedAddRefs && Data in req.refusedAddRefs
    ensures var t := DecodeAudioData(req, AsWritten);
            t.returned == Some(false) && t.onSuccess == Counter(1, 0)
  {
  }
}

=== FILE: entry_points.dfy ===
/** The static entry points the "audioContext" namespace projects into
    script.  Each receives the argument list (argument 0 is the callee's
    `this`, argument 1 the context receiver) with its count, demands an exact
    count and a receiver that resolves to a tracked audio context, and only
    then touches the listener or constructs a node. */
module EntryPoints {

  /** The projected entry points */
  datatype Entry =
    | CreateGain
    | GetDestination
    | CreateBufferSource
    | CreatePanner
    | ListenerSetPosition
    | ListenerSetOrientation
  {
    predicate IsListener() {
      ListenerSetPosition? || ListenerSetOrientation?
    }
  }

  /** The exact argumentCount each entry point demands: `this`, the receiver,
      then x, y, z for a position and x, y, z, upX, upY, upZ for an
      orientation. */
  function Arity(e: Entry): nat {
    match e
    case ListenerSetPosition => 5
    case ListenerSetOrientation => 8
    case _ => 2
  }

  /** A script value as an entry point receives it.  Numbers stand for the
      coordinates; their conversion to GLfloat is not modelled. */
  datatype Value = Undefined | Number(n: int) | External(handle: nat)

  datatype NodeKind = GainNode | PannerNode | BufferSourceNode | DestinationNode

  /** A node wrapper: a shared reference to a native DSP node, and the handle
      of the context that created it. */
  datatype Wrapper = Wrapper(kind: NodeKind, native: nat, owner: nat)

  /** The listener state the setters write */
  datatype Listener = Listener(position: seq<Value>, orientation: seq<Value>)

  /** An audio context: its listener, its one native destination node, and
      the gain wrappers createGain has recorded. */
  datatype Context = Context(listener: Listener, destination: nat, audioNodes: seq<nat>)

  /** The host side of the bridge: the objects the resource tracker maps
      script handles to, and the next fresh handle and native node id. */
  datatype Host = Host(
    contexts: map<nat, Context>,
    wrappers: map<nat, Wrapper>,
    nextHandle: nat,
    nextNative: nat)

  /** What an entry point hands back to script */
  datatype Reply = InvalidRef | Handle(handle: nat)

  datatype Outcome = Outcome(host: Host, reply: Reply)

  /** The guard's verdict; `context` is the resolved receiver */
  datatype Guard = Reject | Proceed(context: nat)

  /** Handles and native node ids are handed out from counters and never
      reused: everything tracked lies below them, and a handle names either a
      context or a wrapper, never both; every wrapper belongs to a tracked
      context. */
  ghost predicate Bounded(host: Host) {
    && (forall h :: h in host.contexts ==>
          h < host.nextHandle && h !in host.wrappers && host.contexts[h].destination < host.nextNative)
    && (forall h :: h in host.wrappers ==>
          h < host.nextHandle && host.wrappers[h].native < host.nextNative && host.wrappers[h].owner in host.contexts)
  }

  /** A destination wrapper wraps its own context's destination node. */
  ghost predicate DestinationsFaithful(host: Host) {
    forall h :: h in host.wrappers && host.wrappers[h].kind == DestinationNode ==>
      host.wrappers[h].owner in host.contexts &&
      host.wrappers[h].native == host.contexts[host.wrappers[h].owner].destination
  }

  /** createGain's bookkeeping lists only that context's gain wrappers. */
  ghost predicate GainsRecorded(host: Host) {
    forall c, i :: c in host.contexts && 0 <= i < |host.contexts[c].audioNodes| ==>
      host.contexts[c].audioNodes[i] in host.wrappers &&
      host.wrappers[host.contexts[c].audioNodes[i]] == Wrapper(GainNode, host.wrappers[host.contexts[c].audioNodes[i]].native, c)
  }

  ghost predicate Valid(host: Host) {
    Bounded(host) && DestinationsFaithful(host) && GainsRecorded(host)
  }

  const NoHost: Host := Host(map[], map[], 0, 0)

  /** The host before any context exists satisfies the invariant, so every
      host reached through NewContext and Invoke does. */
  lemma NoHostIsValid()
    ensures Valid(NoHost)
  {
  }

  /** The AudioContext constructor: a fresh native engine context with its
      destination node, tracked under a fresh handle. */
  function NewContext(host: Host): (r: Outcome)
    requires Valid(host)
    ensures r.reply.Handle? && r.reply.handle !in host.contexts && r.reply.handle !in host.wrappers
    ensures r.host.contexts == host.contexts[r.reply.handle := Context(Listener([], []), host.nextNative, [])]
    ensures r.host.wrappers == host.wrappers
  {
    var h := host.nextHandle;
    var context := Context(Listener([], []), host.nextNative, []);
    Outcome(Host(host.contexts[h := context], host.wrappers, h + 1, host.nextNative + 1), Handle(h))
  }

  /** The guard every entry point runs first: the exact argument count, then
      argument 1 resolving to a tracked audio context (a stale handle, a
      handle to a node, or a non-object all resolve to null). */
  function CheckCall(host: Host, e: Entry, args: seq<Value>): (g: Guard)
    ensures g.Proceed? <==>
              |args| == Arity(e) && args[1].External? && args[1].handle in host.contexts
    ensures g.Proceed? ==> g.context == args[1].handle
  {
    if |args| != Arity(e) then Reject
    else match args[1]
      case External(h) => if h in host.contexts then Proceed(h) else Reject
      case _ => Reject
  }

  /** listener_setPosition on the context `c` */
  function SetPosition(host: Host, c: nat, args: seq<Value>): (r: Host)
    requires c in host.contexts && |args| == Arity(ListenerSetPosition)
    ensures r.contexts.Keys == host.contexts.Keys && r.wrappers == host.wrappers
    ensures r.nextHandle == host.nextHandle && r.nextNative == host.nextNative
    ensures r.contexts[c].listener.position == [args[2], args[3], args[4]]
    ensures r.contexts[c].listener.orientation == host.contexts[c].listener.orientation
    ensures r.contexts[c].destination == host.contexts[c].destination
    ensures r.contexts[c].audioNodes == host.contexts[c].audioNodes
    ensures forall d :: d in host.contexts && d != c ==> r.contexts[d] == host.contexts[d]
  {
    var context := host.contexts[c];
    var listener := context.listener.(position := args[2..5]);
    host.(contexts := host.contexts[c := context.(listener := listener)])
  }

  /** listener_setOrientation on the context `c` */
  function SetOrientation(host: Host, c: nat, args: seq<Value>): (r: Host)
    requires c in host.contexts && |args| == Arity(ListenerSetOrientation)
    ensures r.contexts.Keys == host.contexts.Keys && r.wrappers == host.wrappers
    ensures r.nextHandle == host.nextHandle && r.nextNative == host.nextNative
    ensures r.contexts[c].listener.orientation == [args[2], args[3], args[4], args[5], args[6], args[7]]
    ensures r.contexts[c].listener.position == host.contexts[c].listener.position
    ensures r.contexts[c].destination == host.contexts[c].destination
    ensures r.contexts[c].audioNodes == host.contexts[c].audioNodes
    ensures forall d :: d in host.contexts && d != c ==> r.contexts[d] == host.contexts[d]
  {
    var context := host.contexts[c];
    var listener := context.listener.(orientation := args[2..8]);
    host.(contexts := host.contexts[c := context.(listener := listener)])
  }

  /** createGain, createPanner, createBufferSource on the context `c`: a new
      native node at the context's sample rate, wrapped and tracked under a
      fresh handle.  Only createGain records the wrapper in the context's
      node list. */
  function CreateNode(host: Host, c: nat, kind: NodeKind): (r: Outcome)
    requires Valid(host) && c in host.contexts && kind != DestinationNode
    ensures r.reply.Handle? && r.reply.handle !in host.wrappers && r.reply.handle !in host.contexts
    ensures r.host.wrappers == host.wrappers[r.reply.handle := Wrapper(kind, host.nextNative, c)]
    ensures r.host.contexts.Keys == host.contexts.Keys
    ensures forall d :: d in host.contexts && d != c ==> r.host.contexts[d] == host.contexts[d]
    ensures r.host.contexts[c].listener == host.contexts[c].listener
    ensures r.host.contexts[c].destination == host.contexts[c].destination
    ensures r.host.contexts[c].audioNodes ==
              host.contexts[c].audioNodes + (if kind == GainNode then [r.reply.handle] else [])
  {
    var h := host.nextHandle;
    var wrappers := host.wrappers[h := Wrapper(kind, host.nextNative, c)];
    var contexts :=
      if kind == GainNode then
        host.contexts[c := host.contexts[c].(audioNodes := host.contexts[c].audioNodes + [h])]
      else host.contexts;
    Outcome(Host(contexts, wrappers, h + 1, host.nextNative + 1), Handle(h))
  }

  /** getDestination on the context `c`: a new wrapper, under a fresh handle,
      around the context's existing destination node; no native node is
      made. */
  function Destination(host: Host, c: nat): (r: Outcome)
    requires Valid(host) && c in host.contexts
    ensures r.reply.Handle? && r.reply.handle !in host.wrappers && r.reply.handle !in host.contexts
    ensures r.host.wrappers ==
              host.wrappers[r.reply.handle := Wrapper(DestinationNode, host.contexts[c].destination, c)]
    ensures r.host.contexts == host.contexts && r.host.nextNative == host.nextNative
  {
    var h := host.nextHandle;
    var wrapper := Wrapper(DestinationNode, host.contexts[c].destination, c);
    Outcome(host.(wrappers := host.wrappers[h := wrapper], nextHandle := h + 1), Handle(h))
  }

  /** A projected call: the guard, then the entry point's work.  A rejected
      call changes nothing and answers JS_INVALID_REFERENCE; so does every
      listener setter, accepted or not. */
  function Invoke(host: Host, e: Entry, args: seq<Value>): (r: Outcome)
    requires Valid(host)
    ensures CheckCall(host, e, args) == Reject ==> r == Outcome(host, InvalidRef)
    ensures e.IsListener() ==> r.reply == InvalidRef && r.host.wrappers == host.wrappers
    ensures !e.IsListener() && CheckCall(host, e, args).Proceed? ==>
              r.reply.Handle? && r.reply.handle !in host.wrappers && r.reply.handle !in host.contexts
              && r.host.wrappers.Keys == host.wrappers.Keys + {r.reply.handle}
    ensures r.host.contexts.Keys == host.contexts.Keys
  {
    match CheckCall(host, e, args)
    case Reject => Outcome(host, InvalidRef)
    case Proceed(c) =>
      match e
      case ListenerSetPosition => Outcome(SetPosition(host, c, args), InvalidRef)
      case ListenerSetOrientation => Outcome(SetOrientation(host, c, args), InvalidRef)
      case CreateGain => CreateNode(host, c, GainNode)
      case CreatePanner => CreateNode(host, c, PannerNode)
      case CreateBufferSource => CreateNode(host, c, BufferSourceNode)
      case GetDestination => Destination(host, c)
  }

  /** Every step keeps the host valid. */
  lemma NewContextKeepsValid(host: Host)
    requires Valid(host)
    ensures Valid(NewContext(host).host)
  {
    var r := NewContext(host).host;
    assert Bounded(r);
    assert DestinationsFaithful(r);
    forall c, i | c in r.contexts && 0 <= i < |r.contexts[c].audioNodes|
      ensures r.contexts[c].audioNodes[i] in r.wrappers
    {
      assert c in host.contexts;
    }
  }

  lemma CreateNodeKeepsValid(host: Host, c: nat, kind: NodeKind)
    requires Valid(host) && c in host.contexts && kind != DestinationNode
    ensures Valid(CreateNode(host, c, kind).host)
  {
    var r := CreateNode(host, c, kind).host;
    assert Bounded(r);
    assert DestinationsFaithful(r);
    assert GainsRecorded(r);
  }

  lemma DestinationKeepsValid(host: Host, c: nat)
    requires Valid(host) && c in host.contexts
    ensures Valid(Destination(host, c).host)
  {
    var r := Destination(host, c).host;
    assert Bounded(r);
    assert DestinationsFaithful(r);
    assert GainsRecorded(r);
  }

  lemma InvokeKeepsValid(host: Host, e: Entry, args: seq<Value>)
    requires Valid(host)
    ensures Valid(Invoke(host, e, args).host)
  {
    match CheckCall(host, e, args)
    case Reject =>
    case Proceed(c) =>
      match e
      case ListenerSetPosition =>
        ListenerKeepsValid(host, SetPosition(host, c, args), c);
      case ListenerSetOrientation =>
        ListenerKeepsValid(host, SetOrientation(host, c, args), c);
      case CreateGain => CreateNodeKeepsValid(host, c, GainNode);
      case CreatePanner => CreateNodeKeepsValid(host, c, PannerNode);
      case CreateBufferSource => CreateNodeKeepsValid(host, c, BufferSourceNode);
      case GetDestination => DestinationKeepsValid(host, c);
  }

  /** Changing one context's listener and nothing else keeps the host valid. */
  lemma ListenerKeepsValid(host: Host, r: Host, c: nat)
    requires Valid(host) && c in host.contexts
    requires r.contexts.Keys == host.contexts.Keys && r.wrappers == host.wrappers
    requires r.nextHandle == host.nextHandle && r.nextNative == host.nextNative
    requires r.contexts[c].destination == host.contexts[c].destination
    requires r.contexts[c].audioNodes == host.contexts[c].audioNodes
    requires forall d :: d in host.contexts && d != c ==> r.contexts[d] == host.contexts[d]
    ensures Valid(r)
  {
    assert Bounded(r);
    assert DestinationsFaithful(r);
    assert GainsRecorded(r);
  }

  /** getDestination twice on one context: two distinct wrappers, both
      around that context's one native destination node. */
  lemma DestinationIsShared(host: Host, args: seq<Value>)
    requires Valid(host) && CheckCall(host, GetDestination, args).Proceed?
    ensures var first := Invoke(host, GetDestination, args);
            var second := Invoke(first.host, GetDestination, args);
            var c := args[1].handle;
            && first.reply.Handle? && second.reply.Handle?
            && first.reply.handle != second.reply.handle
            && second.host.wrappers[first.reply.handle].native == host.contexts[c].destination
            && second.host.wrappers[second.reply.handle].native == host.contexts[c].destination
  {
    var first := Invoke(host, GetDestination, args);
    InvokeKeepsValid(host, GetDestination, args);
    assert CheckCall(first.host, GetDestination, args).Proceed?;
  }

  /** The node a factory makes is new: no wrapper already tracked and no
      context's destination refers to it. */
  lemma FactoryNodesAreFresh(host: Host, e: Entry, args: seq<Value>)
    requires Valid(host) && CheckCall(host, e, args).Proceed?
    requires e == CreateGain || e == CreatePanner || e == CreateBufferSource
    ensures var r := Invoke(host, e, args);
            var native := r.host.wrappers[r.reply.handle].native;
            && (forall h :: h in host.wrappers ==> host.wrappers[h].native != native)
            && (forall c :: c in host.contexts ==> host.contexts[c].destination != native)
  {
  }
}

=== FILE: projections.dfy ===
/** Registration of the entry points as script-callable properties of the
    "audioContext" namespace.  Registration goes through the list in a fixed
    order and stops at the first projection the host refuses. */
module Projections {
  import opened Wrappers
  import opened EntryPoints

  /** The script-visible property name of each entry point */
  function Name(e: Entry): string {
    match e
    case CreateGain => "createGain"
    case GetDestination => "getDestination"
    case CreateBufferSource => "createBufferSource"
    case CreatePanner => "createPanner"
    case ListenerSetPosition => "listener_setPosition"
    case ListenerSetOrientation => "listener_setOrientation"
  }

  /** The order InitializeProjections registers them in */
  const RegistrationOrder: seq<Entry> :=
    [CreateGain, GetDestination, CreateBufferSource, CreatePanner, ListenerSetPosition, ListenerSetOrientation]

  /** The entry point a script property name dispatches to */
  function Lookup(name: string): (e: Option<Entry>)
    ensures e.Some? ==> Name(e.value) == name
  {
    if name == "createGain" then Some(CreateGain)
    else if name == "getDestination" then Some(GetDestination)
    else if name == "createBufferSource" then Some(CreateBufferSource)
    else if name == "createPanner" then Some(CreatePanner)
    else if name == "listener_setPosition" then Some(ListenerSetPosition)
    else if name == "listener_setOrientation" then Some(ListenerSetOrientation)
    else None
  }

  /** Every entry point is found again under its own name, so no two share
      one. */
  lemma LookupFindsEveryName(e: Entry)
    ensures Lookup(Name(e)) == Some(e)
  {
    match e
    case CreateGain =>
    case GetDestination =>
    case CreateBufferSource =>
    case CreatePanner =>
    case ListenerSetPosition =>
    case ListenerSetOrientation =>
  }

  /** Whether registration completed, and the entry points projected before
      it stopped. */
  datatype Registration = Registration(ok: bool, projected: seq<Entry>)

  /** Projects `order` one entry at a time; the host refuses the entries in
      `refused`, and the first refusal ends registration with failure,
      leaving the ones before it projected. */
  function Register(order: seq<Entry>, refused: set<Entry>): (r: Registration)
    ensures r.projected <= order
    ensures r.ok <==> forall i :: 0 <= i < |order| ==> order[i] !in refused
    ensures r.ok ==> r.projected == order
    ensures !r.ok ==> |r.projected| < |order| && order[|r.projected|] in refused
    ensures forall i :: 0 <= i < |r.projected| ==> r.projected[i] !in refused
    decreases |order|
  {
    if order == [] then Registration(true, [])
    else if order[0] in refused then Registration(false, [])
    else
      var rest := Register(order[1..], refused);
      Registration(rest.ok, [order[0]] + rest.projected)
  }

  /** Every entry point appears in the registration order. */
  lemma RegistrationOrderCoversAll(e: Entry)
    ensures e in RegistrationOrder
  {
    match e
    case CreateGain => assert RegistrationOrder[0] == e;
    case GetDestination => assert RegistrationOrder[1] == e;
    case CreateBufferSource => assert RegistrationOrder[2] == e;
    case CreatePanner => assert RegistrationOrder[3] == e;
    case ListenerSetPosition => assert RegistrationOrder[4] == e;
    case ListenerSetOrientation => assert RegistrationOrder[5] == e;
  }

  /** Any refused entry point is met on the way through the order. */
  lemma RefusalMeetsRegistration(refused: set<Entry>)
    requires refused != {}
    ensures exists i :: 0 <= i < |RegistrationOrder| && RegistrationOrder[i] in refused
  {
    var e :| e in refused;
    RegistrationOrderCoversAll(e);
    var i :| 0 <= i < |RegistrationOrder| && RegistrationOrder[i] == e;
  }

  /** InitializeProjections: registration of all six entry points.  It
      succeeds exactly when the host refuses none of them, and then every
      entry point is projected. */
  function InitializeProjections(refused: set<Entry>): (r: Registration)
    ensures r.ok <==> refused == {}
    ensures r.ok ==> forall e: Entry :: e in r.projected
    ensures !r.ok ==> exists e :: e in refused && e !in r.projected
  {
    var r := Register(RegistrationOrder, refused);
    assert forall e: Entry :: e in RegistrationOrder by {
      forall e: Entry {
        RegistrationOrderCoversAll(e);
      }
    }
    if refused == {} then r
    else
      RefusalMeetsRegistration(refused);
      r
  }
}

=== FILE: sniffing.dfy ===
/** Container sniffing done by the background decode task before the copied
    bytes are handed to the decoder.  Two containers are recognised:
    - WAV: a RIFF file, laid out as chunk id "RIFF", a 4-byte chunk size, and
      the form type "WAVE";
    - Ogg: a stream whose first page starts with the capture pattern "OggS"
      (section 6 of RFC 3533).
    Everything else is unrecognised. */
module Sniffing {
  import opened Wrappers

  /** "RIFF": chunk id of a RIFF file */
  const RiffMagic: seq<bv8> := [0x52, 0x49, 0x46, 0x46]
  /** "WAVE": form type of a RIFF/WAVE file */
  const WaveMagic: seq<bv8> := [0x57, 0x41, 0x56, 0x45]
  /** "OggS": capture pattern that opens every Ogg page */
  const OggMagic: seq<bv8> := [0x4F, 0x67, 0x67, 0x53]
  /** The form type follows the chunk id and the 4-byte chunk size. */
  const WaveOffset: nat := 8
  /** Bytes a WAV header needs before the form type can be compared. */
  const WavHeaderLength: nat := 12

  datatype Container = Wav | Ogg | Unknown {
    /** The extension string the decoder is given; none when nothing matched */
    function Extension(): (ext: Option<string>)
      ensures ext.None? <==> this == Unknown
    {
      match this
      case Wav => Some("wav")
      case Ogg => Some("ogg")
      case Unknown => None
    }
  }

  /** The bytes at `offset` exist and spell `magic`. */
  predicate MatchesAt(data: seq<bv8>, offset: nat, magic: seq<bv8>) {
    offset + |magic| <= |data| && data[offset..offset + |magic|] == magic
  }

  /** MatchesAt, byte by byte. */
  lemma MatchesAtBytes(data: seq<bv8>, offset: nat, magic: seq<bv8>)
    ensures MatchesAt(data, offset, magic) <==>
              offset + |magic| <= |data| &&
              forall k :: 0 <= k < |magic| ==> data[offset + k] == magic[k]
  {
    if offset + |magic| <= |data| && forall k :: 0 <= k < |magic| ==> data[offset + k] == magic[k] {
      assert data[offset..offset + |magic|] == magic;
    }
  }

  /** The format check of the decode task, with a length guard: a buffer too
      short for a signature does not match it, and no byte past the end of the
      buffer is ever consulted.  RIFF/WAVE is tried first, then Ogg. */
  function Sniff(data: seq<bv8>): (c: Container)
    ensures c == Wav ==> WavHeaderLength <= |data|
    ensures c == Ogg ==> 4 <= |data|
  {
    if MatchesAt(data, 0, RiffMagic) && MatchesAt(data, WaveOffset, WaveMagic) then Wav
    else if MatchesAt(data, 0, OggMagic) then Ogg
    else Unknown
  }

  /** What Sniff recognises, byte by byte.  The Ogg case needs no "and not
      WAV": "RIFF" and "OggS" differ in their first byte, so the two
      signatures exclude each other. */
  lemma SniffSignatures(data: seq<bv8>)
    ensures Sniff(data) == Wav <==>
              WavHeaderLength <= |data| &&
              forall k :: 0 <= k < 4 ==> data[k] == RiffMagic[k] && data[WaveOffset + k] == WaveMagic[k]
    ensures Sniff(data) == Ogg <==>
              4 <= |data| && forall k :: 0 <= k < 4 ==> data[k] == OggMagic[k]
  {
    MatchesAtBytes(data, 0, RiffMagic);
    MatchesAtBytes(data, WaveOffset, WaveMagic);
    MatchesAtBytes(data, 0, OggMagic);
    if MatchesAt(data, 0, RiffMagic) {
      assert data[0] == RiffMagic[0] != OggMagic[0];
    }
  }

  /** Sniff looks at the first 12 bytes and nothing else. */
  lemma SniffReadsOnlyHeader(data: seq<bv8>)
    requires WavHeaderLength <= |data|
    ensures Sniff(data) == Sniff(data[..WavHeaderLength])
  {
    var header := data[..WavHeaderLength];
    assert data[..4] == header[..4];
    assert data[WaveOffset..WavHeaderLength] == header[WaveOffset..WavHeaderLength];
  }

  /** memcmp with the bounds check the source leaves out: true exactly when the
      bytes at `offset` exist and equal `magic`. */
  method Compare(data: seq<bv8>, offset: nat, magic: seq<bv8>) returns (equal: bool)
    ensures equal <==> MatchesAt(data, offset, magic)
  {
    if |data| < offset + |magic| {
      return false;
    }
    var i := 0;
    while i < |magic|
      invariant 0 <= i <= |magic|
      invariant forall k :: 0 <= k < i ==> data[offset + k] == magic[k]
    {
      if data[offset + i] != magic[i] {
        assert data[offset..offset + |magic|][i] != magic[i];
        return false;
      }
      i := i + 1;
    }
    assert data[offset..offset + |magic|] == magic;
    return true;
  }

  /** The sniffing step as the decode task runs it, one comparison at a time. */
  method SniffBuffer(data: seq<bv8>) returns (c: Container)
    ensures c == Sniff(data)
  {
    var riff := Compare(data, 0, RiffMagic);
    var wave := false;
    if riff {
      wave := Compare(data, WaveOffset, WaveMagic);
    }
    if riff && wave {
      return Wav;
    }
    var ogg := Compare(data, 0, OggMagic);
    if ogg {
      return Ogg;
    }
    return Unknown;
  }

  /** A byte stream starting with the RIFF/WAVE header: chunk id, the 4 size
      bytes, form type. */
  function WavHeader(size: seq<bv8>): (h: seq<bv8>)
    requires |size| == 4
    ensures |h| == WavHeaderLength
  {
    RiffMagic + size + WaveMagic
  }

  /** Whatever the chunk size and payload, a RIFF/WAVE header sniffs as WAV. */
  lemma WavHeaderSniffsAsWav(size: seq<bv8>, payload: seq<bv8>)
    requires |size| == 4
    ensures Sniff(WavHeader(size) + payload) == Wav
  {
    var data := WavHeader(size) + payload;
    assert data[..4] == RiffMagic;
    assert data[WaveOffset..WavHeaderLength] == WaveMagic;
  }

  /** Whatever follows it, the Ogg capture pattern sniffs as Ogg. */
  lemma OggPageSniffsAsOgg(rest: seq<bv8>)
    ensures Sniff(OggMagic + rest) == Ogg
  {
    var data := OggMagic + rest;
    assert data[..4] == OggMagic;
    assert data[0] != RiffMagic[0];
  }

  /** The memory the unchecked comparison reads exists: the first 4 bytes
      always, and bytes 8..12 once the first 4 spelled "RIFF". */
  predicate ReadsStayInBuffer(memory: seq<bv8>) {
    4 <= |memory| && (memory[..4] == RiffMagic ==> WavHeaderLength <= |memory|)
  }

  /** The comparison as the source writes it: memcmp at fixed offsets with no
      length check.  The reads go to `data` followed by `adjacent`, the bytes
      that happen to lie after the buffer in memory.  On a buffer long enough
      for both signatures the verdict is Sniff's whatever lies beyond it, and
      an Ogg verdict needs only the first 4 bytes, so the two part ways only
      on a short buffer. */
  function SniffUnguarded(data: seq<bv8>, adjacent: seq<bv8>): (c: Container)
    requires ReadsStayInBuffer(data + adjacent)
    ensures WavHeaderLength <= |data| ==> c == Sniff(data)
    ensures 4 <= |data| ==> (c == Ogg <==> Sniff(data) == Ogg)
    ensures c != Sniff(data) ==> |data| < WavHeaderLength
  {
    var memory := data + adjacent;
    assert 4 <= |data| ==> memory[..4] == data[..4];
    assert WavHeaderLength <= |data| ==> memory[WaveOffset..WavHeaderLength] == data[WaveOffset..WavHeaderLength];
    if memory[..4] == RiffMagic && memory[WaveOffset..WavHeaderLength] == WaveMagic then Wav
    else if memory[..4] == OggMagic then Ogg
    else Unknown
  }

  /** A 4-byte buffer "RIFF" followed in memory by "....WAVE" is taken for WAV
      by the unchecked comparison, and a 1-byte buffer "O" followed in memory
      by "ggS" for Ogg; the guarded sniffer rejects both. */
  lemma UnguardedReadsPastBuffer()
    ensures SniffUnguarded(RiffMagic, [0, 0, 0, 0] + WaveMagic) == Wav
    ensures Sniff(RiffMagic) == Unknown
    ensures SniffUnguarded([0x4F], [0x67, 0x67, 0x53]) == Ogg
    ensures Sniff([0x4F]) == Unknown
  {
    var wav := RiffMagic + ([0, 0, 0, 0] + WaveMagic);
    assert wav[..4] == RiffMagic && wav[WaveOffset..WavHeaderLength] == WaveMagic;
    var ogg: seq<bv8> := [0x4F] + [0x67, 0x67, 0x53];
    assert ogg[..4] == OggMagic && ogg[..4] != RiffMagic;
  }
}

=== FILE: wrappers.dfy ===
/** Optional values: an engine query that may fail, a lookup that may find
    nothing. */
module Wrappers {

  datatype Option<+T> = None | Some(value: T)
}
